=== FILE: README.md ===
# NSGamepad driver model

This project models, in Dafny, the core of the NSGamepad USB HID driver for
Teensy boards (`usb_nsgamepad`). The driver presents the board to a host as a
Nintendo Switch compatible gamepad. It keeps one 8-byte input report: a 16-bit
button field, one D-pad direction code, four analog axis bytes and a filler
byte. It offers calls that change that report and a `loop` that retransmits
it when at least 6 ms have passed since its last transmission.

The repository has two variants of the driver, and both are modelled:

- **Teensy 4** (`Teensy4`). Every input is addressed through one id space
  (`set`, `get`, `press`, `release`). The D-pad is held as four raw flags in a
  buffer. `send()` (and `loop` through it) refreshes the report's code from
  the flags with `encodeDpad`; `get` of the whole pad encodes without
  storing; `write()`, `begin()` and `end()` transmit the stored code as it
  stands. Its SOCD (simultaneous opposite cardinal directions) cleaner
  cancels both up+down and left+right to neutral.
- **Teensy 3** (`Teensy3`). Buttons are addressed by bit number, axes by id.
  The D-pad is written as four booleans through `setDpad`, which stores the
  code at once. Its cleaner keeps up when up and down are both held, and
  cancels left+right to neutral.

The modules are:

- `Bits`: single-bit operations on the 16-bit button field.
- `Protocol`: what the header defines, and what both variants share:
  - the nine D-pad codes;
  - the input-id enum and its deprecated aliases;
  - the report record and its byte layout;
  - the `DPadButtons` bit-field buffer;
  - the flags-to-code mapping both variants run after cleaning, and the
    membership tests that read a code back as directions.
- `PollTimer`: the wrap-around-safe 6 ms transmit gate of `loop`.
- `Teensy4`, `Teensy3`: the two driver objects as immutable states with
  one function per driver call.
- `Variants`: how the two cleaners and the two decoders relate.

A driver state holds the report, the Teensy 4 D-pad buffer, `startMillis`,
and a log `sent` of every report handed to the transport.
`usb_nsgamepad_send()` appends the report to that log. `millis()` is the
`now` parameter of `Begin` and `Loop`.

Four layout choices hold on the target but are not written in the source:

- The button field is laid out little-endian (ARM Cortex-M).
- The `DPadButtons` bit-fields are allocated from the least significant bit
  (GCC), so `up` is bit 0 and `right` is bit 3.
- The id of the whole pad, `NSDPad`, is defined outside the header. It is
  modelled as `Teensy4.WholePad`, distinct from every numbered id.
- `NSGAMEPAD_REPORT_SIZE`, which `releaseAll` and `write(void*)` use, is
  defined outside the header. It is taken to be 8, the size of the packed
  report struct (`Protocol.ReportSize`).

Further modelling choices:

- The report is the packed 8-byte struct of
  `hardware/teensy/avr/cores/teensy3/usb_nsgamepad.h:110-119`.
- Raw report injection (`write(void*)`) copies `NSGAMEPAD_REPORT_SIZE`
  bytes unchecked; the model takes exactly `ReportSize` bytes.
- Releasing an axis on Teensy 4 leaves it at 0, although the comment on the
  axis branch says it is centred, and `get` on Teensy 4 truncates buttons
  8..15 to 0. Both are modelled as written, with corrected versions beside
  them (see "## Findings").
- `usb_nsgamepad_send()` returns a result that the driver discards, and so
  does the model.
- The two variants use different up+down policies, and each is modelled
  as written.

The Teensy 3 header declares the Teensy 4 interface (`set`, `get`,
`dpadBuffer`, `encodeDpad`, `isAxis`). It does not declare the members that
the Teensy 3 source defines (`setButton`, `getButton`, `setAxis`, `getAxis`,
`getDpad`, `setDpad`). The Teensy 3 model follows the definitions in the
Teensy 3 source.

## Model

Paths are relative to the repository root.

| member | source | states |
|---|---|---|
| Bits.SetBit | hardware/teensy/avr/cores/teensy3/usb_nsgamepad.cpp:74-76 | `buttons \|= 1 << b` makes bit b one and leaves the other fifteen bits as they were |
| Bits.ClearBit | hardware/teensy/avr/cores/teensy3/usb_nsgamepad.cpp:78-80 | `buttons &= ~(1 << b)` makes bit b zero and leaves the other fifteen bits as they were |
| Bits.ClearAfterSet | hardware/teensy/avr/cores/teensy3/usb_nsgamepad.cpp:74-80 | release after press equals release alone; if the bit was zero, release after press restores the field exactly |
| Bits.IdleUpdates | hardware/teensy/avr/cores/teensy3/usb_nsgamepad.cpp:74-80 | pressing a pressed button, or releasing a released one, leaves the field unchanged |
| Bits.MaskedValue | hardware/teensy/avr/cores/teensy4/usb_nsgamepad.cpp:176 | `buttons & (1 << b)` is the mask when the bit is set and 0 otherwise; the mask fits the low byte exactly for b < 8 |
| PollTimer.Elapsed | hardware/teensy/avr/cores/teensy4/usb_nsgamepad.cpp:57-59 | the unsigned 32-bit `now - startMillis` is the offset that carries `startMillis` to `now` modulo 2^32 |
| PollTimer.ElapsedUnique | hardware/teensy/avr/cores/teensy4/usb_nsgamepad.cpp:59 | that offset is unique in 0..2^32-1 |
| PollTimer.ElapsedCases | hardware/teensy/avr/cores/teensy4/usb_nsgamepad.cpp:59 | without a clock wrap the offset is the plain difference; across one wrap it is the difference plus 2^32 |
| PollTimer.DueIffIntervalPassed | hardware/teensy/avr/cores/teensy4/usb_nsgamepad.cpp:56-63 | `loop` transmits exactly when the time elapsed since the last transmission, counted across a wrap, is at least 6 ms; it never transmits at the instant of the previous one |
| PollTimer.WrapAroundExample | hardware/teensy/avr/cores/teensy3/usb_nsgamepad.cpp:56-63 | from 2^32-2 the gate opens at 4 (6 ms later) and is still shut at 3 |
| Protocol.Code | hardware/teensy/avr/cores/teensy3/usb_nsgamepad.h:54-63 | each of the nine positions has a code in 0..7 or 0xF, and only the centre has 0xF |
| Protocol.DirectionOf | hardware/teensy/avr/cores/teensy3/usb_nsgamepad.h:54-63 | every one of the nine codes belongs to a position, the one whose code it is |
| Protocol.CodesDistinct | hardware/teensy/avr/cores/teensy3/usb_nsgamepad.h:54-63 | the nine positions have nine different codes |
| Protocol.Clockwise | hardware/teensy/avr/cores/teensy3/usb_nsgamepad.h:56-63 | the eight compass codes run clockwise from up: the next position clockwise has the next code modulo 8, and a different flag set |
| Protocol.QuarterTurn | hardware/teensy/avr/cores/teensy3/usb_nsgamepad.h:56-63 | two steps clockwise turn the flags a quarter: up becomes right, right down, down left and left up, so the code order is the clockwise compass order |
| Protocol.KindOf | hardware/teensy/avr/cores/teensy3/usb_nsgamepad.h:70-99 | ids 0..15 are buttons at the bit of the same number, 16..19 axes, 20..23 D-pad flags, and nothing above |
| Protocol.KindOfInjective | hardware/teensy/avr/cores/teensy3/usb_nsgamepad.h:70-99 | no two ids denote the same button, axis or flag |
| Protocol.AxisAndFlagIds | hardware/teensy/avr/cores/teensy3/usb_nsgamepad.h:89-99 | LeftX, LeftY, RightX, RightY and Up, Down, Left, Right take the ids 16..23 in enum order |
| Protocol.DeprecatedAliases | hardware/teensy/avr/cores/teensy3/usb_nsgamepad.h:101-107 | the deprecated trigger, throttle and stick names alias L, R, ZL, ZR, L3, R3 (ids 4, 5, 6, 7, 10, 11) |
| Protocol.WithAxis | hardware/teensy/avr/cores/teensy4/usb_nsgamepad.cpp:96-108 | an axis write changes that axis byte and no other field |
| Protocol.Serialize | hardware/teensy/avr/cores/teensy3/usb_nsgamepad.h:110-119 | the packed report is 8 bytes: the button field low byte first, then dPad, the four axes and the filler, in declaration order |
| Protocol.Deserialize | hardware/teensy/avr/cores/teensy3/usb_nsgamepad.h:110-119 | reading 8 bytes builds the button field from bytes 0 and 1, low byte first, and puts each of bytes 2..7 in the field at its offset |
| Protocol.DeserializeSerialize | hardware/teensy/avr/cores/teensy3/usb_nsgamepad.h:110-119 | reading back the bytes of a report gives that report |
| Protocol.SerializeDeserialize | hardware/teensy/avr/cores/teensy3/usb_nsgamepad.h:110-119 | writing out a report read from 8 bytes gives those bytes |
| Protocol.IdleReport | hardware/teensy/avr/cores/teensy3/usb_nsgamepad.cpp:82-87 | after `memset` to zero and centring, the report bytes are 0, 0, 0xF, 0x80 ×4, 0, with no button set |
| Protocol.WithFlag | hardware/teensy/avr/cores/teensy4/usb_nsgamepad.cpp:118-129 | a flag write changes that flag and no other |
| Protocol.ToRaw | hardware/teensy/avr/cores/teensy3/usb_nsgamepad.h:159-169 | the raw byte of a four-flag buffer uses only its low four bits |
| Protocol.RawRoundTrip | hardware/teensy/avr/cores/teensy3/usb_nsgamepad.h:159-169 | the raw-byte view and the four bit-fields describe the same buffer, both ways (for raw bytes below 16) |
| Protocol.ZeroRawReleases | hardware/teensy/avr/cores/teensy4/usb_nsgamepad.cpp:188 | `dpadBuffer.raw = 0` clears all four flags |
| Protocol.FlagsOf | hardware/teensy/avr/cores/teensy4/usb_nsgamepad.cpp:203-223 | each position stands for a clean flag set (no opposite pair), and only the centre for none |
| Protocol.FlagsOfBijective | hardware/teensy/avr/cores/teensy4/usb_nsgamepad.cpp:203-223 | positions and clean flag sets are in one-to-one correspondence |
| Protocol.CompassCode | hardware/teensy/avr/cores/teensy4/usb_nsgamepad.cpp:203-223 | the if-chain shared by both variants always yields one of the nine codes |
| Protocol.CompassCodeMatchesReference | hardware/teensy/avr/cores/teensy3/usb_nsgamepad.cpp:188-207 | on the flags of a position the if-chain yields that position's code |
| Protocol.CompassCodeInverse | hardware/teensy/avr/cores/teensy4/usb_nsgamepad.cpp:203-223 | on clean flags, the code the if-chain yields points in exactly the set directions |
| Protocol.PointsOf | hardware/teensy/avr/cores/teensy3/usb_nsgamepad.cpp:139-170 | the four three-code membership tests read a code as the flags of its position, and any other byte as no flag |
| Protocol.CodeDeterminedByPoints | hardware/teensy/avr/cores/teensy3/usb_nsgamepad.cpp:139-170 | two codes are equal exactly when the four membership tests agree on them |
| Teensy4.Construct | hardware/teensy/avr/cores/teensy4/usb_nsgamepad.cpp:40-44 | the new object holds the idle report and an empty buffer; nothing is sent and `startMillis` is left as found |
| Teensy4.EncodeDpad | hardware/teensy/avr/cores/teensy4/usb_nsgamepad.cpp:191-224 | the code is one of the nine, and points in a direction exactly when that flag is set and its opposite is not (both opposite pairs cancel) |
| Teensy4.DecodeDpad | hardware/teensy/avr/cores/teensy4/usb_nsgamepad.cpp:111-117 | the range tests give clean flags equal to the membership tests; re-encoding gives back every valid code, and any other byte decodes to no flag |
| Teensy4.DecodeEncode | hardware/teensy/avr/cores/teensy4/usb_nsgamepad.cpp:111-117 | decoding an encoded buffer gives the cleaned flags: each flag whose opposite is not set |
| Teensy4.IsAxis | hardware/teensy/avr/cores/teensy4/usb_nsgamepad.cpp:226-238 | true exactly for ids 16..19 |
| Teensy4.Set | hardware/teensy/avr/cores/teensy4/usb_nsgamepad.cpp:93-136 | per kind of id: an axis byte, a flag, or a button bit takes the value (non-zero is true) and nothing else changes; the whole pad is decoded into the buffer; ids 24..31 change nothing |
| Teensy4.Get | hardware/teensy/avr/cores/teensy4/usb_nsgamepad.cpp:138-180 | an axis byte, a flag as 0/1, the encoded pad, or for a button the low byte of its mask: non-zero exactly for a pressed button 0..7; ids 24..31 read 0 |
| Teensy4.GetAfterSet | hardware/teensy/avr/cores/teensy4/usb_nsgamepad.cpp:93-180 | `get` after `set` on one id returns the written axis byte, the written flag as 0/1, the code (or the centre for a non-code byte), the written state of buttons 0..7, and 0 for buttons 8..15 |
| Teensy4.SetLeavesOtherIds | hardware/teensy/avr/cores/teensy4/usb_nsgamepad.cpp:93-180 | a `set` of one numbered id leaves what `get` reads at every other numbered id unchanged |
| Teensy4.Press | hardware/teensy/avr/cores/teensy4/usb_nsgamepad.cpp:75-82 | an axis is unchanged, the whole pad is released to the centre, a button bit or flag is set, and nothing else changes; ids 24..31 change nothing |
| Teensy4.Release | hardware/teensy/avr/cores/teensy4/usb_nsgamepad.cpp:84-91 | an axis ends at 0 (the centring write is overwritten), the whole pad is centred, and a button bit or flag is cleared, with nothing else changed; ids 24..31 change nothing |
| Teensy4.PressReleaseRestores | hardware/teensy/avr/cores/teensy4/usb_nsgamepad.cpp:75-91 | pressing a released button and releasing it restores the whole state |
| Teensy4.ReleaseCentred | hardware/teensy/avr/cores/teensy4/usb_nsgamepad.cpp:84-91 | corrected release: an axis is left at its centre 0x80 and nothing else changes; every other id behaves as in `release` |
| Teensy4.ReleaseAxisEndsAtZero | hardware/teensy/avr/cores/teensy4/usb_nsgamepad.cpp:84-91 | as written, a released axis reads 0; corrected, it reads 0x80 |
| Teensy4.GetCorrected | hardware/teensy/avr/cores/teensy4/usb_nsgamepad.cpp:138-180 | corrected get: every one of the 16 buttons reads 1 when pressed and 0 otherwise; other ids read as in `get` |
| Teensy4.GetCorrectedAfterSet | hardware/teensy/avr/cores/teensy4/usb_nsgamepad.cpp:93-180 | with the corrected read, every button reads back the state `set` wrote |
| Teensy4.GetLosesHighButtons | hardware/teensy/avr/cores/teensy4/usb_nsgamepad.cpp:176 | as written, a pressed button 8..15 reads 0, the same as a released one; corrected, it reads 1 |
| Teensy4.ReleaseAll | hardware/teensy/avr/cores/teensy4/usb_nsgamepad.cpp:182-189 | the report bytes are the idle ones, every flag is clear, and the stored code is the encoding of the buffer; timer and log untouched |
| Teensy4.ReleaseAllIdempotent | hardware/teensy/avr/cores/teensy4/usb_nsgamepad.cpp:182-189 | releasing everything twice is releasing it once |
| Teensy4.Send | hardware/teensy/avr/cores/teensy4/usb_nsgamepad.cpp:65-68 | the stored code is refreshed from the buffer, the report is appended to the log, and nothing else changes |
| Teensy4.SendReport | hardware/teensy/avr/cores/teensy4/usb_nsgamepad.cpp:70-73 | the report is replaced by the given one and that one is transmitted; the buffer is untouched |
| Teensy4.InjectedPadOverwritten | hardware/teensy/avr/cores/teensy4/usb_nsgamepad.cpp:65-73 | the next `send()` after `send(r)` transmits `r` with its pad replaced by the code of the untouched buffer |
| Teensy4.Begin | hardware/teensy/avr/cores/teensy4/usb_nsgamepad.cpp:50-54 | the idle report is stored and transmitted, the buffer is released, and the timer starts at `now` |
| Teensy4.Loop | hardware/teensy/avr/cores/teensy4/usb_nsgamepad.cpp:56-63 | when due, the refreshed report is transmitted and the timer restarts at `now`; otherwise nothing changes |
| Teensy4.LoopSpacing | hardware/teensy/avr/cores/teensy4/usb_nsgamepad.cpp:56-63 | after a transmitting `loop` at t1, a `loop` at t2 transmits again exactly when t2 is due relative to t1 |
| Teensy4.BeginThenQuiet | hardware/teensy/avr/cores/teensy4/usb_nsgamepad.cpp:50-63 | within 5 ms after `begin`, `loop` changes nothing |
| Teensy4.End | hardware/teensy/avr/cores/teensy4/usb_nsgamepad.cpp:242-245 | the idle report is stored and transmitted and the buffer is released |
| Teensy4.Write | hardware/teensy/avr/cores/teensy4/usb_nsgamepad.cpp:247-249 | the report is transmitted as stored, without refreshing its pad |
| Teensy4.WriteSendsStoredPad | hardware/teensy/avr/cores/teensy4/usb_nsgamepad.cpp:247-249 | after a flag is set, `write()` transmits the stale centre code where `send()` transmits up |
| Teensy4.WriteRaw | hardware/teensy/avr/cores/teensy4/usb_nsgamepad.cpp:251-254 | the report's bytes become the 8 given bytes and that report is transmitted |
| Teensy4.Buttons | hardware/teensy/avr/cores/teensy4/usb_nsgamepad.cpp:256-258 | the whole button field is replaced and nothing else changes |
| Teensy4.AxisSetter | hardware/teensy/avr/cores/teensy4/usb_nsgamepad.cpp:260-274 | each deprecated axis setter writes its axis byte and nothing else |
| Teensy4.AxisSettersAgreeWithSet | hardware/teensy/avr/cores/teensy4/usb_nsgamepad.cpp:260-274 | `leftXAxis(a)` … `rightYAxis(a)` equal `set` on the ids 16..19 |
| Teensy4.DPad | hardware/teensy/avr/cores/teensy4/usb_nsgamepad.cpp:276-278 | the signed argument is stored as its value modulo 256 and nothing else changes; the next `send()` replaces it with the code of the buffer |
| Teensy3.Construct | hardware/teensy/avr/cores/teensy3/usb_nsgamepad.cpp:40-44 | the new object holds the idle report; nothing is sent and `startMillis` is left as found |
| Teensy3.Press | hardware/teensy/avr/cores/teensy3/usb_nsgamepad.cpp:74-76 | bit b is set and nothing else changes; bit numbers 16..31 change nothing |
| Teensy3.Release | hardware/teensy/avr/cores/teensy3/usb_nsgamepad.cpp:78-80 | bit b is cleared and nothing else changes; bit numbers 16..31 change nothing |
| Teensy3.SetButton | hardware/teensy/avr/cores/teensy3/usb_nsgamepad.cpp:90-92 | bit b takes the given state and nothing else changes; bit numbers 16..31 change nothing |
| Teensy3.GetButton | hardware/teensy/avr/cores/teensy3/usb_nsgamepad.cpp:94-96 | reads true exactly when b is one of the 16 bit positions and that bit is set, that is, when bit `b % 8` of wire byte `b / 8` is one |
| Teensy3.GetButtonAfterSetButton | hardware/teensy/avr/cores/teensy3/usb_nsgamepad.cpp:90-96 | after `setButton(b, s)`, `getButton(b)` is s (false past bit 15) and every other bit number reads as before |
| Teensy3.PressReleaseRestores | hardware/teensy/avr/cores/teensy3/usb_nsgamepad.cpp:74-80 | pressing a released button and releasing it restores the whole state |
| Teensy3.SetAxis | hardware/teensy/avr/cores/teensy3/usb_nsgamepad.cpp:98-115 | an axis id writes that axis byte only; any other id changes nothing |
| Teensy3.GetAxis | hardware/teensy/avr/cores/teensy3/usb_nsgamepad.cpp:117-137 | an axis id reads its byte, which is the byte at offset 3..6 of the wire report for ids 16..19; any other id reads 0 |
| Teensy3.GetAxisAfterSetAxis | hardware/teensy/avr/cores/teensy3/usb_nsgamepad.cpp:98-137 | `getAxis` returns the byte `setAxis` wrote, and every other id reads as before |
| Teensy3.SetDpad | hardware/teensy/avr/cores/teensy3/usb_nsgamepad.cpp:177-209 | the stored code is one of the nine; it points up exactly when up is held, down when down is held without up, and left or right when held without its opposite; nothing else changes |
| Teensy3.GetDpad | hardware/teensy/avr/cores/teensy3/usb_nsgamepad.cpp:139-175 | a cardinal query holds exactly when the stored byte is a code whose position includes that direction; any other query holds exactly when it equals the stored byte |
| Teensy3.GetDpadAfterSetDpad | hardware/teensy/avr/cores/teensy3/usb_nsgamepad.cpp:139-209 | the cardinal queries after `setDpad` return the cleaned flags; each of the four diagonal queries and the centre query holds exactly when the cleaned flags make that position |
| Teensy3.GetDpadOtherCodes | hardware/teensy/avr/cores/teensy3/usb_nsgamepad.cpp:171-172 | any byte other than the four cardinal codes is answered by equality with the stored code |
| Teensy3.ReleaseAll | hardware/teensy/avr/cores/teensy3/usb_nsgamepad.cpp:82-88 | the report bytes are the idle ones; timer and log untouched |
| Teensy3.ReleaseAllIdempotent | hardware/teensy/avr/cores/teensy3/usb_nsgamepad.cpp:82-88 | releasing everything twice is releasing it once |
| Teensy3.ReleaseAllReadsIdle | hardware/teensy/avr/cores/teensy3/usb_nsgamepad.cpp:82-175 | after `releaseAll` no button reads pressed, every axis reads 0x80 and no direction reads held |
| Teensy3.Send | hardware/teensy/avr/cores/teensy3/usb_nsgamepad.cpp:65-67 | the report is transmitted as stored and nothing else changes |
| Teensy3.SendReport | hardware/teensy/avr/cores/teensy3/usb_nsgamepad.cpp:69-72 | the report is replaced by the given one and that one is transmitted |
| Teensy3.Begin | hardware/teensy/avr/cores/teensy3/usb_nsgamepad.cpp:50-54 | the idle report is stored and transmitted and the timer starts at `now` |
| Teensy3.Loop | hardware/teensy/avr/cores/teensy3/usb_nsgamepad.cpp:56-63 | when due, the report is transmitted and the timer restarts at `now`; otherwise nothing changes |
| Teensy3.LoopSpacing | hardware/teensy/avr/cores/teensy3/usb_nsgamepad.cpp:56-63 | after a transmitting `loop` at t1, a `loop` at t2 transmits again exactly when t2 is due relative to t1 |
| Teensy3.End | hardware/teensy/avr/cores/teensy3/usb_nsgamepad.cpp:213-216 | the idle report is stored and transmitted |
| Teensy3.Write | hardware/teensy/avr/cores/teensy3/usb_nsgamepad.cpp:218-220 | `write()` is the same as `send()` |
| Teensy3.WriteRaw | hardware/teensy/avr/cores/teensy3/usb_nsgamepad.cpp:222-225 | the report's bytes become the 8 given bytes and that report is transmitted |
| Teensy3.Buttons | hardware/teensy/avr/cores/teensy3/usb_nsgamepad.cpp:227-229 | the whole button field is replaced and nothing else changes |
| Teensy3.AxisSetter | hardware/teensy/avr/cores/teensy3/usb_nsgamepad.cpp:231-245 | each deprecated axis setter writes its axis byte and nothing else |
| Teensy3.AxisSettersAgreeWithSetAxis | hardware/teensy/avr/cores/teensy3/usb_nsgamepad.cpp:231-245 | `leftXAxis(a)` … `rightYAxis(a)` equal `setAxis` on the ids 16..19 |
| Teensy3.DPad | hardware/teensy/avr/cores/teensy3/usb_nsgamepad.cpp:247-249 | the signed argument is stored as its value modulo 256, unchecked, and nothing else changes |
| Variants.CleanersDifferOnlyOnUpDown | hardware/teensy/avr/cores/teensy3/usb_nsgamepad.cpp:177-186 | the Teensy 3 and Teensy 4 cleaners store the same code exactly when up and down are not both held; when they are, Teensy 3 points up and Teensy 4 neither up nor down |
| Variants.UpDownExample | hardware/teensy/avr/cores/teensy4/usb_nsgamepad.cpp:192-201 | up+down gives up (Teensy 3) or the centre (Teensy 4); left+right gives the centre in both; up+right gives up-right in both |
| Variants.DecodersAgree | hardware/teensy/avr/cores/teensy4/usb_nsgamepad.cpp:111-117 | the Teensy 4 range decoding and the Teensy 3 membership queries read every byte as the same four flags |

## Left out

- The USB transport (`usb_nsgamepad_send`, the shared `usb_nsgamepad_data`
  buffer) is not modelled. Each transmission is an append to the `sent` log,
  and the transport's success result is discarded, as the firmware does.
- `connected()` (`usb_configuration`) is left out. It reads USB enumeration
  state, which is outside the core.
- `millis()` is the `now` parameter. The constructor never writes
  `startMillis`, so its value before `begin` is the parameter `garbage`.
- The `report` member aliases the USB buffer, and `memcpy`/`memset` write
  through it. The model treats these as whole-record replacement of the
  report; aliasing effects are not modelled.
- The global `NSGamepad` object and the `#ifdef NSGAMEPAD_INTERFACE` build
  guards are not modelled.
- Teensy4.ValidInput excludes ids of 32 and above. For those, `set`, `get`,
  `press` and `release` shift by at least the width of `int`, which C++
  leaves undefined. Ids 24..31 are modelled: they change nothing and read 0.
- Teensy3.Press, Teensy3.Release, Teensy3.SetButton and Teensy3.GetButton
  exclude bit numbers of 32 and above, for the same reason.
- Teensy4.LeftXAxis, Teensy4.LeftYAxis, Teensy4.RightXAxis and
  Teensy4.RightYAxis have no contract of their own; `AxisSetter` and
  `AxisSettersAgreeWithSet` state what they do. The same holds for the
  Teensy 3 setters and `AxisSettersAgreeWithSetAxis`.
- The four upper bits of the `DPadButtons` raw byte are not modelled. Only
  `raw = 0` is ever written to it.
- The numeric value of `NSDPad` is not part of this model, because it is
  defined outside the header. The whole pad is a separate constructor.
  Whether it collides with a numbered id is therefore not modelled.
- The USB descriptors, the HID report descriptor and the interval
  constant are outside the core. The model uses the interval only through
  the `6` of `loop`.

## Findings

| source | as written | input that shows it | evidently intended | confidence | as-written member | corrected member |
|---|---|---|---|---|---|---|
| hardware/teensy/avr/cores/teensy4/usb_nsgamepad.cpp:139-176 | `get` stores `buttons & (1 << input)` in the `uint8_t output`, keeping only the low byte of the mask | `press(NSButton_Plus)` (id 9), then `get(NSButton_Plus)` returns 0, as it does for a released button | a pressed button reads non-zero for every one of the 16 buttons | high; not executed | Teensy4.GetLosesHighButtons | Teensy4.GetCorrected |
| hardware/teensy/avr/cores/teensy4/usb_nsgamepad.cpp:84-91 | after `set(input, 0x80)` for an axis there is no `return`, so the `else` branch of the next `if` runs `set(input, false)` | `release(NSAxis_LeftX)` leaves `leftXAxis` at 0, a stick held fully left or up | a released axis is centred at 0x80, as the comment on line 86 says | high; not executed | Teensy4.ReleaseAxisEndsAtZero | Teensy4.ReleaseCentred |

=== FILE: bits.dfy ===
/** Single-bit views of the 16-bit button field of the report.

    The firmware addresses button `b` through the mask `(uint16_t)1 << b`.
    Bit positions are indexed by `bv4`, which holds exactly the 16 positions
    of the field; this module names the mask and the things done with it
    (test, set, clear), and proves what each does to every one of the bits.
 */
module Bits {

  /** The mask `(uint16_t)1 << b`. */
  function Mask(b: bv4): bv16
  {
    (1 as bv16) << b
  }

  /** Whether bit `k` of `w` is one. */
  predicate Bit(w: bv16, k: bv4)
  {
    w & Mask(k) != 0
  }

  /** `v` and `w` agree on every bit except possibly bit `b`. */
  ghost predicate SameBitsExcept(v: bv16, w: bv16, b: bv4)
  {
    forall k: bv4 :: k != b ==> Bit(v, k) == Bit(w, k)
  }

  /** `w | Mask(b)`: bit `b` becomes one, every other bit keeps its value. */
  function SetBit(w: bv16, b: bv4): (r: bv16)
    ensures Bit(r, b)
    ensures SameBitsExcept(r, w, b)
  {
    w | Mask(b)
  }

  /** `w & ~Mask(b)`: bit `b` becomes zero, every other bit keeps its value. */
  function ClearBit(w: bv16, b: bv4): (r: bv16)
    ensures !Bit(r, b)
    ensures SameBitsExcept(r, w, b)
  {
    w & !Mask(b)
  }

  /** Setting a bit and then clearing it gives the field with that bit zero, whatever it was before. */
  lemma ClearAfterSet(w: bv16, b: bv4)
    ensures ClearBit(SetBit(w, b), b) == ClearBit(w, b)
    ensures !Bit(w, b) ==> ClearBit(SetBit(w, b), b) == w
  {
  }

  /** Setting a bit that is already one, or clearing one that is already zero, changes nothing. */
  lemma IdleUpdates(w: bv16, b: bv4)
    ensures Bit(w, b) ==> SetBit(w, b) == w
    ensures !Bit(w, b) ==> ClearBit(w, b) == w
  {
  }

  /** `w & Mask(b)` is the mask itself when bit `b` is one and zero otherwise;
      the mask lies in the low byte exactly for positions 0..7. */
  lemma MaskedValue(w: bv16, b: bv4)
    ensures w & Mask(b) == if Bit(w, b) then Mask(b) else 0
    ensures b < 8 ==> 0 < Mask(b) as int < 256
    ensures 8 <= b ==> Mask(b) as int % 256 == 0
  {
  }
}

=== FILE: poll_timer.dfy ===
/** The transmit gate of `loop()`, shared by both firmware variants.

    The millisecond clock is a 32-bit unsigned counter that wraps; the
    firmware subtracts the time of the last transmission from the current
    time in unsigned 32-bit arithmetic and transmits once the difference
    reaches 6 (the interface's polling interval of 5, plus one). The clock
    itself is not modelled: the current time is a parameter.
 */
module PollTimer {

  /** A `uint32_t` millisecond timestamp. */
  type Word = x: int | 0 <= x < Modulus

  const Modulus: int := 0x1_0000_0000

  /** Minimum number of milliseconds between two periodic transmissions. */
  const PollInterval: Word := 6

  /** `now - start` in unsigned 32-bit arithmetic: the time elapsed since
      `start`, counted across wrap-arounds of the clock. */
  function Elapsed(now: Word, start: Word): (d: Word)
    ensures (start + d) % Modulus == now
  {
    (now - start) % Modulus
  }

  /** The elapsed time is the only offset that carries `start` to `now`. */
  lemma ElapsedUnique(now: Word, start: Word, d: Word)
    requires (start + d) % Modulus == now
    ensures d == Elapsed(now, start)
  {
  }

  /** Without a wrap-around the elapsed time is the plain difference; across
      one it is the difference plus 2^32. */
  lemma ElapsedCases(now: Word, start: Word)
    ensures start <= now ==> Elapsed(now, start) == now - start
    ensures now < start ==> Elapsed(now, start) == now - start + Modulus
  {
  }

  /** Whether `loop()` transmits at time `now` after the last transmission at `start`. */
  predicate Due(now: Word, start: Word)
  {
    Elapsed(now, start) >= PollInterval
  }

  /** The gate opens exactly when the offset that carries `start` to `now`
      is at least 6; in particular it is shut at the instant of a transmission. */
  lemma DueIffIntervalPassed(now: Word, start: Word, d: Word)
    requires (start + d) % Modulus == now
    ensures Due(now, start) <==> d >= PollInterval
    ensures !Due(start, start)
  {
    ElapsedUnique(now, start, d);
  }

  /** Across the wrap-around of the clock the gate still opens on time:
      from 2^32 - 2 to 4 is six milliseconds, from 2^32 - 2 to 3 only five. */
  lemma WrapAroundExample()
    ensures Due(4, 0xFFFF_FFFE)
    ensures !Due(3, 0xFFFF_FFFE)
  {
  }
}

=== FILE: protocol.dfy ===
/** The data shared by both firmware variants of the NSGamepad driver, as
    fixed by `usb_nsgamepad.h`: the D-pad wire codes, the input-id numbering,
    the packed input report, and the four-flag D-pad buffer. The direction
    mapping that both variants run after their (different) SOCD cleaning step
    also lives here, together with its reference definition.
 */
module Protocol {
  import opened Bits

  /** An unsigned 8-bit value (`uint8_t`). */
  type Byte = bv8

  /** The byte holding the number `x`. */
  function ByteOf(x: int): (b: Byte)
    requires 0 <= x < 256
    ensures b as int == x
  {
    x as Byte
  }

  // ---------------------------------------------------------------------
  // D-pad wire codes
  // ---------------------------------------------------------------------

  const DpadCentered: Byte := 0xF
  const DpadUp: Byte := 0
  const DpadUpRight: Byte := 1
  const DpadRight: Byte := 2
  const DpadDownRight: Byte := 3
  const DpadDown: Byte := 4
  const DpadDownLeft: Byte := 5
  const DpadLeft: Byte := 6
  const DpadUpLeft: Byte := 7

  /** The nine values the report's `dPad` byte is meant to carry. */
  predicate IsDpadCode(v: Byte)
  {
    v <= 7 || v == DpadCentered
  }

  /** The nine positions of the pad, in the order of their codes. */
  datatype Direction = Up | UpRight | Right | DownRight | Down | DownLeft | Left | UpLeft | Centered

  /** The wire code of a position: the eight compass points are numbered
      0..7 clockwise starting from up, and the centre is 0xF. */
  function Code(d: Direction): (c: Byte)
    ensures IsDpadCode(c)
    ensures d.Centered? <==> c == DpadCentered
  {
    match d
    case Up => DpadUp
    case UpRight => DpadUpRight
    case Right => DpadRight
    case DownRight => DpadDownRight
    case Down => DpadDown
    case DownLeft => DpadDownLeft
    case Left => DpadLeft
    case UpLeft => DpadUpLeft
    case Centered => DpadCentered
  }

  /** The position whose code is `c`: every code names exactly one position. */
  function DirectionOf(c: Byte): (d: Direction)
    requires IsDpadCode(c)
    ensures Code(d) == c
  {
    if c == DpadUp then Up
    else if c == DpadUpRight then UpRight
    else if c == DpadRight then Right
    else if c == DpadDownRight then DownRight
    else if c == DpadDown then Down
    else if c == DpadDownLeft then DownLeft
    else if c == DpadLeft then Left
    else if c == DpadUpLeft then UpLeft
    else Centered
  }

  /** Distinct positions have distinct codes. */
  lemma CodesDistinct(d: Direction, e: Direction)
    ensures Code(d) == Code(e) <==> d == e
  {
  }

  /** Turning a compass point 45 degrees clockwise adds one to its code, modulo 8. */
  function Clockwise(d: Direction): (e: Direction)
    requires !d.Centered?
    ensures !e.Centered?
    ensures Code(e) == (Code(d) + 1) % 8
    ensures FlagsOf(e) != FlagsOf(d)
  {
    match d
    case Up => UpRight
    case UpRight => Right
    case Right => DownRight
    case DownRight => Down
    case Down => DownLeft
    case DownLeft => Left
    case Left => UpLeft
    case UpLeft => Up
  }

  /** Two steps clockwise are a quarter turn of the flags: what pointed up
      now points right, right becomes down, down left, and left up. */
  lemma QuarterTurn(d: Direction)
    requires !d.Centered?
    ensures FlagsOf(Clockwise(Clockwise(d)))
         == DPadButtons(FlagsOf(d).left, FlagsOf(d).right, FlagsOf(d).down, FlagsOf(d).up)
  {
  }

  // ---------------------------------------------------------------------
  // Input ids (enum NSInputs)
  // ---------------------------------------------------------------------

  const ButtonY: Byte := 0
  const ButtonB: Byte := 1
  const ButtonA: Byte := 2
  const ButtonX: Byte := 3
  const ButtonL: Byte := 4
  const ButtonR: Byte := 5
  const ButtonZL: Byte := 6
  const ButtonZR: Byte := 7
  const ButtonMinus: Byte := 8
  const ButtonPlus: Byte := 9
  const ButtonL3: Byte := 10
  const ButtonR3: Byte := 11
  const ButtonHome: Byte := 12
  const ButtonCapture: Byte := 13
  const ButtonReserved1: Byte := 14
  const ButtonReserved2: Byte := 15

  const AxisLeftX: Byte := 16
  const AxisLeftY: Byte := 17
  const AxisRightX: Byte := 18
  const AxisRightY: Byte := 19

  const DpadInputUp: Byte := 20
  const DpadInputDown: Byte := 21
  const DpadInputLeft: Byte := 22
  const DpadInputRight: Byte := 23

  // Deprecated names kept by the enum for older sketches.
  const ButtonLeftTrigger: Byte := ButtonL
  const ButtonRightTrigger: Byte := ButtonR
  const ButtonLeftThrottle: Byte := ButtonZL
  const ButtonRightThrottle: Byte := ButtonZR
  const ButtonLeftStick: Byte := ButtonL3
  const ButtonRightStick: Byte := ButtonR3

  /** The four analog axes of the report. */
  datatype Axis = LeftX | LeftY | RightX | RightY

  /** The four raw direction flags of the D-pad buffer. */
  datatype Flag = UpFlag | DownFlag | LeftFlag | RightFlag

  /** What an input id denotes. */
  datatype InputKind = ButtonInput(bit: bv4) | AxisInput(axis: Axis) | FlagInput(flag: Flag) | Unassigned

  /** The category of an input id: buttons 0..15 (bit = id), axes 16..19,
      D-pad flags 20..23, and nothing above. */
  function KindOf(id: Byte): (k: InputKind)
    ensures k.ButtonInput? <==> id < 16
    ensures k.AxisInput? <==> 16 <= id < 20
    ensures k.FlagInput? <==> 20 <= id < 24
    ensures k.ButtonInput? ==> k.bit as Byte == id
  {
    if id < 16 then ButtonInput(id as bv4)
    else if id == AxisLeftX then AxisInput(LeftX)
    else if id == AxisLeftY then AxisInput(LeftY)
    else if id == AxisRightX then AxisInput(RightX)
    else if id == AxisRightY then AxisInput(RightY)
    else if id == DpadInputUp then FlagInput(UpFlag)
    else if id == DpadInputDown then FlagInput(DownFlag)
    else if id == DpadInputLeft then FlagInput(LeftFlag)
    else if id == DpadInputRight then FlagInput(RightFlag)
    else Unassigned
  }

  /** Every assigned id denotes something no other id denotes. */
  lemma KindOfInjective(i: Byte, j: Byte)
    requires !KindOf(i).Unassigned?
    ensures KindOf(i) == KindOf(j) <==> i == j
  {
  }

  /** Each axis and each flag has exactly one id, in the enum's order. */
  lemma AxisAndFlagIds()
    ensures KindOf(AxisLeftX) == AxisInput(LeftX) && KindOf(AxisLeftY) == AxisInput(LeftY)
    ensures KindOf(AxisRightX) == AxisInput(RightX) && KindOf(AxisRightY) == AxisInput(RightY)
    ensures KindOf(DpadInputUp) == FlagInput(UpFlag) && KindOf(DpadInputDown) == FlagInput(DownFlag)
    ensures KindOf(DpadInputLeft) == FlagInput(LeftFlag) && KindOf(DpadInputRight) == FlagInput(RightFlag)
  {
  }

  /** The deprecated names are aliases of the shoulder, throttle and stick buttons. */
  lemma DeprecatedAliases()
    ensures ButtonLeftTrigger == ButtonL == 4 && ButtonRightTrigger == ButtonR == 5
    ensures ButtonLeftThrottle == ButtonZL == 6 && ButtonRightThrottle == ButtonZR == 7
    ensures ButtonLeftStick == ButtonL3 == 10 && ButtonRightStick == ButtonR3 == 11
  {
  }

  // ---------------------------------------------------------------------
  // The input report (HID_NSGamepadReport_Data_t)
  // ---------------------------------------------------------------------

  /** The packed report: seven fields in this order, 8 bytes in all. */
  datatype Report = Report(
    buttons: bv16,
    dPad: Byte,
    leftXAxis: Byte,
    leftYAxis: Byte,
    rightXAxis: Byte,
    rightYAxis: Byte,
    filler: Byte)

  const ReportSize: nat := 8

  /** The byte an axis occupies in the report. */
  function AxisValue(r: Report, a: Axis): Byte
  {
    match a
    case LeftX => r.leftXAxis
    case LeftY => r.leftYAxis
    case RightX => r.rightXAxis
    case RightY => r.rightYAxis
  }

  /** The report with one axis byte replaced. */
  function WithAxis(r: Report, a: Axis, v: Byte): (s: Report)
    ensures AxisValue(s, a) == v
    ensures OnlyAxisChanged(s, r, a)
  {
    match a
    case LeftX => r.(leftXAxis := v)
    case LeftY => r.(leftYAxis := v)
    case RightX => r.(rightXAxis := v)
    case RightY => r.(rightYAxis := v)
  }

  /** `s` and `r` differ at most in the byte of axis `a`. */
  predicate OnlyAxisChanged(s: Report, r: Report, a: Axis)
  {
    && s.buttons == r.buttons
    && s.dPad == r.dPad
    && s.filler == r.filler
    && (a != LeftX ==> s.leftXAxis == r.leftXAxis)
    && (a != LeftY ==> s.leftYAxis == r.leftYAxis)
    && (a != RightX ==> s.rightXAxis == r.rightXAxis)
    && (a != RightY ==> s.rightYAxis == r.rightYAxis)
  }

  /** `s` and `r` differ at most in bit `b` of the button field. */
  ghost predicate OnlyButtonChanged(s: Report, r: Report, b: bv4)
  {
    && SameBitsExcept(s.buttons, r.buttons, b)
    && s.dPad == r.dPad
    && s.leftXAxis == r.leftXAxis
    && s.leftYAxis == r.leftYAxis
    && s.rightXAxis == r.rightXAxis
    && s.rightYAxis == r.rightYAxis
    && s.filler == r.filler
  }

  /** The low and high bytes of the button field, and the field rebuilt from them. */
  function LowByte(w: bv16): Byte { (w & 0xFF) as Byte }

  function HighByte(w: bv16): Byte { (w >> 8) as Byte }

  function JoinBytes(lo: Byte, hi: Byte): bv16
  {
    (lo as bv16) | ((hi as bv16) << 8)
  }

  lemma JoinSplit(w: bv16)
    ensures JoinBytes(LowByte(w), HighByte(w)) == w
  {
  }

  lemma SplitJoin(lo: Byte, hi: Byte)
    ensures LowByte(JoinBytes(lo, hi)) == lo && HighByte(JoinBytes(lo, hi)) == hi
  {
  }

  /** The report as it lies in memory on the little-endian target: the
      button field low byte first, then the six one-byte fields. */
  function Serialize(r: Report): (bytes: seq<Byte>)
    ensures |bytes| == ReportSize
    ensures JoinBytes(bytes[0], bytes[1]) == r.buttons
    ensures bytes[2..] == [r.dPad, r.leftXAxis, r.leftYAxis, r.rightXAxis, r.rightYAxis, r.filler]
  {
    [LowByte(r.buttons), HighByte(r.buttons), r.dPad, r.leftXAxis, r.leftYAxis, r.rightXAxis, r.rightYAxis, r.filler]
  }

  /** Reading a report from `ReportSize` bytes laid out as `Serialize` writes them. */
  function Deserialize(bytes: seq<Byte>): (r: Report)
    requires |bytes| == ReportSize
    ensures r.buttons == JoinBytes(bytes[0], bytes[1])
    ensures r.dPad == bytes[2] && r.filler == bytes[7]
    ensures r.leftXAxis == bytes[3] && r.leftYAxis == bytes[4]
    ensures r.rightXAxis == bytes[5] && r.rightYAxis == bytes[6]
  {
    Report(JoinBytes(bytes[0], bytes[1]), bytes[2], bytes[3], bytes[4], bytes[5], bytes[6], bytes[7])
  }

  /** Reading back what was written gives the same report. */
  lemma DeserializeSerialize(r: Report)
    ensures Deserialize(Serialize(r)) == r
  {
    JoinSplit(r.buttons);
  }

  /** Writing what was read gives the same bytes. */
  lemma SerializeDeserialize(bytes: seq<Byte>)
    requires |bytes| == ReportSize
    ensures Serialize(Deserialize(bytes)) == bytes
  {
    SplitJoin(bytes[0], bytes[1]);
  }

  /** The idle report `releaseAll` writes: the whole report is first zeroed
      (`memset`), then the four axes are centred at 0x80 and the pad centred. */
  function IdleReport(): (r: Report)
    ensures Serialize(r) == [0, 0, DpadCentered, 0x80, 0x80, 0x80, 0x80, 0]
    ensures forall b: bv4 :: !Bit(r.buttons, b)
  {
    var zeroed := Deserialize([0, 0, 0, 0, 0, 0, 0, 0]);
    zeroed.(leftXAxis := 0x80, leftYAxis := 0x80, rightXAxis := 0x80, rightYAxis := 0x80, dPad := DpadCentered)
  }

  // ---------------------------------------------------------------------
  // The D-pad buffer (struct DPadButtons)
  // ---------------------------------------------------------------------

  /** Four one-bit flags, overlaid on one raw byte. */
  datatype DPadButtons = DPadButtons(up: bool, down: bool, left: bool, right: bool)

  const Released := DPadButtons(false, false, false, false)

  function FlagValue(d: DPadButtons, f: Flag): bool
  {
    match f
    case UpFlag => d.up
    case DownFlag => d.down
    case LeftFlag => d.left
    case RightFlag => d.right
  }

  /** The buffer with one flag replaced. */
  function WithFlag(d: DPadButtons, f: Flag, v: bool): (e: DPadButtons)
    ensures FlagValue(e, f) == v
    ensures forall g: Flag :: g != f ==> FlagValue(e, g) == FlagValue(d, g)
  {
    match f
    case UpFlag => d.(up := v)
    case DownFlag => d.(down := v)
    case LeftFlag => d.(left := v)
    case RightFlag => d.(right := v)
  }

  /** The flags seen through the raw byte: the bit-fields are allocated from
      the least significant bit, so `up` is bit 0 and `right` is bit 3. */
  function FromRaw(raw: Byte): DPadButtons
  {
    DPadButtons(raw & 1 != 0, raw & 2 != 0, raw & 4 != 0, raw & 8 != 0)
  }

  /** The raw byte of a buffer whose four upper bits are zero. */
  function ToRaw(d: DPadButtons): (raw: Byte)
    ensures raw < 16
  {
    (if d.up then 1 else 0) | (if d.down then 2 else 0) | (if d.left then 4 else 0) | (if d.right then 8 else 0)
  }

  /** The raw view and the flag view describe the same buffer. */
  lemma RawRoundTrip(d: DPadButtons, raw: Byte)
    ensures FromRaw(ToRaw(d)) == d
    ensures raw < 16 ==> ToRaw(FromRaw(raw)) == raw
  {
  }

  /** Writing 0 to the raw byte clears all four flags. */
  lemma ZeroRawReleases()
    ensures FromRaw(0) == Released
    ensures forall f: Flag :: !FlagValue(FromRaw(0), f)
  {
  }

  // ---------------------------------------------------------------------
  // Directions as flag sets, and the shared direction mapping
  // ---------------------------------------------------------------------

  /** No two opposite flags are both set: the shape an SOCD cleaner leaves. */
  predicate Clean(d: DPadButtons)
  {
    !(d.up && d.down) && !(d.left && d.right)
  }

  /** The flags a position stands for. */
  function FlagsOf(d: Direction): (f: DPadButtons)
    ensures Clean(f)
    ensures d.Centered? <==> f == Released
  {
    match d
    case Up => DPadButtons(true, false, false, false)
    case UpRight => DPadButtons(true, false, false, true)
    case Right => DPadButtons(false, false, false, true)
    case DownRight => DPadButtons(false, true, false, true)
    case Down => DPadButtons(false, true, false, false)
    case DownLeft => DPadButtons(false, true, true, false)
    case Left => DPadButtons(false, false, true, false)
    case UpLeft => DPadButtons(true, false, true, false)
    case Centered => DPadButtons(false, false, false, false)
  }

  /** Every clean flag set is the flag set of exactly one position. */
  lemma FlagsOfBijective(d: Direction, e: Direction, f: DPadButtons)
    ensures FlagsOf(d) == FlagsOf(e) <==> d == e
    ensures Clean(f) ==> exists p: Direction :: FlagsOf(p) == f
  {
    if Clean(f) {
      var p := if f.up then (if f.left then UpLeft else if f.right then UpRight else Up)
               else if f.down then (if f.left then DownLeft else if f.right then DownRight else Down)
               else if f.left then Left else if f.right then Right else Centered;
      assert FlagsOf(p) == f;
    }
  }

  /** The mapping from flags to a code that both variants run once their
      flags are cleaned: up wins the first test, then right, then down,
      then left, and nothing set gives the centre. */
  function CompassCode(d: DPadButtons): (c: Byte)
    ensures IsDpadCode(c)
  {
    if d.up then
      (if d.left then DpadUpLeft else if d.right then DpadUpRight else DpadUp)
    else if d.right then
      (if d.down then DpadDownRight else DpadRight)
    else if d.down then
      (if d.left then DpadDownLeft else DpadDown)
    else if d.left then
      DpadLeft
    else
      DpadCentered
  }

  /** On clean flags the mapping is the reference one: it yields the code
      of the position whose flags they are. */
  lemma CompassCodeMatchesReference(p: Direction)
    ensures CompassCode(FlagsOf(p)) == Code(p)
  {
  }

  // Which of the four directions a code points towards: the membership
  // tests the firmware applies to a stored code.

  predicate PointsUp(c: Byte)
  {
    c == DpadUp || c == DpadUpLeft || c == DpadUpRight
  }

  predicate PointsDown(c: Byte)
  {
    c == DpadDown || c == DpadDownLeft || c == DpadDownRight
  }

  predicate PointsRight(c: Byte)
  {
    c == DpadRight || c == DpadUpRight || c == DpadDownRight
  }

  predicate PointsLeft(c: Byte)
  {
    c == DpadLeft || c == DpadUpLeft || c == DpadDownLeft
  }

  /** The four membership tests, read back as a flag set. */
  function PointsOf(c: Byte): (d: DPadButtons)
    ensures Clean(d)
    ensures IsDpadCode(c) ==> d == FlagsOf(DirectionOf(c))
    ensures !IsDpadCode(c) ==> d == Released
  {
    DPadButtons(PointsUp(c), PointsDown(c), PointsLeft(c), PointsRight(c))
  }

  /** A code is determined by the four membership tests. */
  lemma CodeDeterminedByPoints(c: Byte, e: Byte)
    requires IsDpadCode(c) && IsDpadCode(e)
    ensures PointsOf(c) == PointsOf(e) <==> c == e
  {
    FlagsOfBijective(DirectionOf(c), DirectionOf(e), Released);
  }

  /** On clean flags, the code the mapping yields points exactly in the
      directions that are set. */
  lemma CompassCodeInverse(d: DPadButtons)
    requires Clean(d)
    ensures PointsOf(CompassCode(d)) == d
  {
  }
}

=== FILE: teensy3.dfy ===
/** The Teensy 3 variant of the NSGamepad driver (`teensy3/usb_nsgamepad.cpp`).

    Its state is the report alone. Buttons are addressed by bit number,
    axes by their ids, and the D-pad is written as four booleans that an
    SOCD cleaner with up-priority turns into a code at once. The USB
    transport is a log of transmitted reports; the clock is the `now`
    parameter.
 */
module Teensy3 {
  import opened Bits
  import opened Protocol
  import opened PollTimer

  /** The driver object: the report (aliased onto the USB buffer in the
      firmware), the time of the last periodic transmission, and every
      report handed to the transport so far. */
  datatype Gamepad = Gamepad(report: Report, startMillis: Word, sent: seq<Report>)

  /** `usb_nsgamepad_send()`: the transport receives the report as it stands. */
  function Transmit(g: Gamepad): (r: Gamepad)
  {
    g.(sent := g.sent + [g.report])
  }

  /** The constructor fills the report with idle data. It never writes
      `startMillis`, whose value until `begin` is the parameter `garbage`. */
  function Construct(garbage: Word): (g: Gamepad)
    ensures g.report == IdleReport()
    ensures g.startMillis == garbage && g.sent == []
  {
    ReleaseAll(Gamepad(IdleReport(), garbage, []))
  }

  // ---------------------------------------------------------------------
  // Buttons
  // ---------------------------------------------------------------------

  /** `press(b)`: bit `b` of the button field is set; nothing else changes.
      A bit number from 16 to 31 shifts the 1 out of the 16-bit field, so
      nothing changes at all; from 32 on the shift exceeds the width of
      `int`, which C++ leaves undefined. */
  function Press(g: Gamepad, b: Byte): (r: Gamepad)
    requires b < 32
    ensures b < 16 ==> Bit(r.report.buttons, b as bv4) && OnlyButtonChanged(r.report, g.report, b as bv4)
    ensures 16 <= b ==> r == g
    ensures r.startMillis == g.startMillis && r.sent == g.sent
  {
    if b < 16 then g.(report := g.report.(buttons := SetBit(g.report.buttons, b as bv4))) else g
  }

  /** `release(b)`: bit `b` of the button field is cleared; nothing else
      changes, and nothing at all for a bit number from 16 to 31. */
  function Release(g: Gamepad, b: Byte): (r: Gamepad)
    requires b < 32
    ensures b < 16 ==> !Bit(r.report.buttons, b as bv4) && OnlyButtonChanged(r.report, g.report, b as bv4)
    ensures 16 <= b ==> r == g
    ensures r.startMillis == g.startMillis && r.sent == g.sent
  {
    if b < 16 then g.(report := g.report.(buttons := ClearBit(g.report.buttons, b as bv4))) else g
  }

  /** `setButton(b, state)`: press when `state` holds, release otherwise, so
      bit `b` takes `state` and nothing else changes; past bit 15 nothing
      changes at all. */
  function SetButton(g: Gamepad, b: Byte, state: bool): (r: Gamepad)
    requires b < 32
    ensures b < 16 ==> Bit(r.report.buttons, b as bv4) == state && OnlyButtonChanged(r.report, g.report, b as bv4)
    ensures 16 <= b ==> r == g
    ensures r.startMillis == g.startMillis && r.sent == g.sent
  {
    if state then Press(g, b) else Release(g, b)
  }

  /** `getButton(b)`: whether bit `b` is set (the masked field converted to
      `bool`); a bit number from 16 to 31 masks nothing and reads false. On
      the wire, button `b` is bit `b % 8` of report byte `b / 8`. */
  function GetButton(g: Gamepad, b: Byte): (pressed: bool)
    requires b < 32
    ensures pressed <==> b < 16 && Bit(g.report.buttons, b as bv4)
    ensures b < 16 ==> (pressed <==> (Serialize(g.report)[(b / 8) as int] >> (b % 8)) & 1 == 1)
  {
    b < 16 && Bit(g.report.buttons, b as bv4)
  }

  /** After `setButton(b, s)` button `b` reads `s` (a bit number past the
      field reads false whatever was set), and every other bit number reads
      what it read before. */
  lemma GetButtonAfterSetButton(g: Gamepad, b: Byte, state: bool, other: Byte)
    requires b < 32 && other < 32
    ensures GetButton(SetButton(g, b, state), b) == (state && b < 16)
    ensures other != b ==> GetButton(SetButton(g, b, state), other) == GetButton(g, other)
  {
    var r := SetButton(g, b, state);
    if other != b && b < 16 && other < 16 {
      assert (other as bv4) != (b as bv4);
      assert Bit(r.report.buttons, other as bv4) == Bit(g.report.buttons, other as bv4);
    }
  }

  /** Pressing a button that is up and releasing it again restores the whole state. */
  lemma PressReleaseRestores(g: Gamepad, b: Byte)
    requires b < 16
    requires !GetButton(g, b)
    ensures Release(Press(g, b), b) == g
  {
    ClearAfterSet(g.report.buttons, b as bv4);
  }

  // ---------------------------------------------------------------------
  // Axes
  // ---------------------------------------------------------------------

  /** `setAxis(a, pos)`: the named axis takes `pos`; any id other than the
      four axis ids changes nothing. */
  function SetAxis(g: Gamepad, a: Byte, pos: Byte): (r: Gamepad)
    ensures KindOf(a).AxisInput? ==>
      && AxisValue(r.report, KindOf(a).axis) == pos
      && OnlyAxisChanged(r.report, g.report, KindOf(a).axis)
      && r.startMillis == g.startMillis && r.sent == g.sent
    ensures !KindOf(a).AxisInput? ==> r == g
  {
    match KindOf(a)
    case AxisInput(axis) => g.(report := WithAxis(g.report, axis, pos))
    case _ => g
  }

  /** `getAxis(a)`: the byte of the named axis, or 0 for any other id. The
      axis ids 16..19 read report bytes 3..6 on the wire. */
  function GetAxis(g: Gamepad, a: Byte): (pos: Byte)
    ensures KindOf(a).AxisInput? ==> pos == AxisValue(g.report, KindOf(a).axis)
    ensures !KindOf(a).AxisInput? ==> pos == 0
    ensures 16 <= a < 20 ==> pos == Serialize(g.report)[a as int - 13]
  {
    match KindOf(a)
    case AxisInput(axis) => AxisValue(g.report, axis)
    case _ => 0
  }

  /** What `getAxis` reads after `setAxis`: the written byte at that axis,
      the old byte at every other axis, and 0 at any id that is not an axis. */
  lemma GetAxisAfterSetAxis(g: Gamepad, a: Byte, pos: Byte, other: Byte)
    ensures KindOf(a).AxisInput? ==> GetAxis(SetAxis(g, a, pos), a) == pos
    ensures other != a ==> GetAxis(SetAxis(g, a, pos), other) == GetAxis(g, other)
  {
    if other != a && KindOf(a).AxisInput? && KindOf(other).AxisInput? {
      KindOfInjective(a, other);
    }
  }

  // ---------------------------------------------------------------------
  // D-pad
  // ---------------------------------------------------------------------

  /** `setDpad(up, down, left, right)`: up with down keeps only up, left with
      right cancels to neither, and the cleaned flags are mapped to one of
      the nine codes, which is stored in the report. The code points in a
      direction exactly as the cleaned flags say; nothing else changes. */
  function SetDpad(g: Gamepad, up: bool, down: bool, left: bool, right: bool): (r: Gamepad)
    ensures IsDpadCode(r.report.dPad)
    ensures PointsUp(r.report.dPad) == up
    ensures PointsDown(r.report.dPad) == (down && !up)
    ensures PointsLeft(r.report.dPad) == (left && !right)
    ensures PointsRight(r.report.dPad) == (right && !left)
    ensures r.report == g.report.(dPad := r.report.dPad)
    ensures r.startMillis == g.startMillis && r.sent == g.sent
  {
    var down' := if up && down then false else down;
    var horizontal := !(left && right);
    var cleaned := DPadButtons(up, down', left && horizontal, right && horizontal);
    CompassCodeInverse(cleaned);
    g.(report := g.report.(dPad := CompassCode(cleaned)))
  }

  /** `getDpad(d)`: for the four cardinal codes, whether the stored code
      points that way (a diagonal points both of its ways); for any other
      byte, whether it is the stored code. */
  function GetDpad(g: Gamepad, d: Byte): (b: bool)
    ensures d == DpadUp ==> (b <==> IsDpadCode(g.report.dPad) && FlagsOf(DirectionOf(g.report.dPad)).up)
    ensures d == DpadDown ==> (b <==> IsDpadCode(g.report.dPad) && FlagsOf(DirectionOf(g.report.dPad)).down)
    ensures d == DpadLeft ==> (b <==> IsDpadCode(g.report.dPad) && FlagsOf(DirectionOf(g.report.dPad)).left)
    ensures d == DpadRight ==> (b <==> IsDpadCode(g.report.dPad) && FlagsOf(DirectionOf(g.report.dPad)).right)
    ensures d != DpadUp && d != DpadDown && d != DpadLeft && d != DpadRight ==> (b <==> d == g.report.dPad)
  {
    var c := g.report.dPad;
    if d == DpadUp then PointsUp(c)
    else if d == DpadDown then PointsDown(c)
    else if d == DpadRight then PointsRight(c)
    else if d == DpadLeft then PointsLeft(c)
    else d == c
  }

  /** After `setDpad(u, d, l, r)` the four cardinal queries return the
      cleaned flags: up is `u`, down is `d` without `u`, left is `l` without
      `r`, right is `r` without `l`; and a diagonal query holds exactly when
      both of its flags survive cleaning. */
  lemma GetDpadAfterSetDpad(g: Gamepad, up: bool, down: bool, left: bool, right: bool)
    ensures GetDpad(SetDpad(g, up, down, left, right), DpadUp) == up
    ensures GetDpad(SetDpad(g, up, down, left, right), DpadDown) == (down && !up)
    ensures GetDpad(SetDpad(g, up, down, left, right), DpadLeft) == (left && !right)
    ensures GetDpad(SetDpad(g, up, down, left, right), DpadRight) == (right && !left)
    ensures GetDpad(SetDpad(g, up, down, left, right), DpadUpLeft) == (up && left && !right)
    ensures GetDpad(SetDpad(g, up, down, left, right), DpadDownRight) == (down && !up && right && !left)
    ensures GetDpad(SetDpad(g, up, down, left, right), DpadUpRight) == (up && right && !left)
    ensures GetDpad(SetDpad(g, up, down, left, right), DpadDownLeft) == (down && !up && left && !right)
    ensures GetDpad(SetDpad(g, up, down, left, right), DpadCentered) == (!up && !down && (left == right))
  {
    var c := SetDpad(g, up, down, left, right).report.dPad;
    CodeDeterminedByPoints(c, DpadUpLeft);
    CodeDeterminedByPoints(c, DpadDownRight);
    CodeDeterminedByPoints(c, DpadUpRight);
    CodeDeterminedByPoints(c, DpadDownLeft);
    CodeDeterminedByPoints(c, DpadCentered);
  }

  /** Any byte other than the four cardinal codes is answered by comparing it with the stored code. */
  lemma GetDpadOtherCodes(g: Gamepad, d: Byte)
    requires d != DpadUp && d != DpadDown && d != DpadLeft && d != DpadRight
    ensures GetDpad(g, d) <==> d == g.report.dPad
  {
  }

  // ---------------------------------------------------------------------
  // releaseAll, send, begin, loop
  // ---------------------------------------------------------------------

  /** `releaseAll`: the idle report (no button, axes at 0x80, pad centred, filler 0). */
  function ReleaseAll(g: Gamepad): (r: Gamepad)
    ensures Serialize(r.report) == [0, 0, DpadCentered, 0x80, 0x80, 0x80, 0x80, 0]
    ensures r.startMillis == g.startMillis && r.sent == g.sent
  {
    g.(report := IdleReport())
  }

  /** Releasing everything twice is releasing it once. */
  lemma ReleaseAllIdempotent(g: Gamepad)
    ensures ReleaseAll(ReleaseAll(g)) == ReleaseAll(g)
  {
  }

  /** The idle report reads as: no button, every axis 0x80, no direction. */
  lemma ReleaseAllReadsIdle(g: Gamepad, b: Byte, a: Byte)
    requires b < 32
    ensures !GetButton(ReleaseAll(g), b)
    ensures KindOf(a).AxisInput? ==> GetAxis(ReleaseAll(g), a) == 0x80
    ensures !GetDpad(ReleaseAll(g), DpadUp) && !GetDpad(ReleaseAll(g), DpadDown)
    ensures !GetDpad(ReleaseAll(g), DpadLeft) && !GetDpad(ReleaseAll(g), DpadRight)
  {
  }

  /** `send()`: the report is transmitted as it stands; nothing else changes. */
  function Send(g: Gamepad): (r: Gamepad)
    ensures r.sent == g.sent + [g.report]
    ensures r.report == g.report && r.startMillis == g.startMillis
  {
    Transmit(g)
  }

  /** `send(r)`: the whole report is replaced by `rep` and transmitted. */
  function SendReport(g: Gamepad, rep: Report): (r: Gamepad)
    ensures r.report == rep && r.sent == g.sent + [rep]
    ensures r.startMillis == g.startMillis
  {
    Transmit(g.(report := rep))
  }

  /** `begin`: release everything, transmit the idle report, and start the
      transmit timer at `now`. */
  function Begin(g: Gamepad, now: Word): (r: Gamepad)
    ensures r.report == IdleReport()
    ensures r.sent == g.sent + [IdleReport()]
    ensures r.startMillis == now
  {
    Transmit(ReleaseAll(g)).(startMillis := now)
  }

  /** `loop`: when at least 6 ms (modulo 2^32) have passed since the last
      periodic transmission, transmit the report unchanged and restart the
      timer at `now`; otherwise nothing happens. */
  function Loop(g: Gamepad, now: Word): (r: Gamepad)
    ensures Due(now, g.startMillis) ==> r.sent == g.sent + [g.report] && r.report == g.report && r.startMillis == now
    ensures !Due(now, g.startMillis) ==> r == g
  {
    if Due(now, g.startMillis) then Send(g).(startMillis := now) else g
  }

  /** Two calls of `loop` less than 6 ms apart transmit at most once; if the
      first one transmits, the second transmits again exactly when 6 ms or
      more separate them, across a wrap-around of the clock as well. */
  lemma LoopSpacing(g: Gamepad, t1: Word, t2: Word)
    requires Due(t1, g.startMillis)
    ensures |Loop(Loop(g, t1), t2).sent| == |g.sent| + (if Due(t2, t1) then 2 else 1)
  {
  }

  // ---------------------------------------------------------------------
  // Deprecated API
  // ---------------------------------------------------------------------

  /** `end`: release everything and transmit. */
  function End(g: Gamepad): (r: Gamepad)
    ensures r.report == IdleReport()
    ensures r.sent == g.sent + [IdleReport()] && r.startMillis == g.startMillis
  {
    Transmit(ReleaseAll(g))
  }

  /** `write()`: transmit the report as it stands. */
  function Write(g: Gamepad): (r: Gamepad)
    ensures r == Send(g)
  {
    Transmit(g)
  }

  /** `write(r)`: the report is overwritten with `ReportSize` raw bytes and transmitted. */
  function WriteRaw(g: Gamepad, bytes: seq<Byte>): (r: Gamepad)
    requires |bytes| == ReportSize
    ensures Serialize(r.report) == bytes
    ensures r.sent == g.sent + [r.report] && r.startMillis == g.startMillis
  {
    SerializeDeserialize(bytes);
    Transmit(g.(report := Deserialize(bytes)))
  }

  /** `buttons(b)`: the whole button field is overwritten. */
  function Buttons(g: Gamepad, b: bv16): (r: Gamepad)
    ensures r.report == g.report.(buttons := b)
    ensures r.startMillis == g.startMillis && r.sent == g.sent
  {
    g.(report := g.report.(buttons := b))
  }

  /** `leftXAxis(a)`, `leftYAxis(a)`, `rightXAxis(a)`, `rightYAxis(a)`: one axis byte is overwritten. */
  function AxisSetter(g: Gamepad, axis: Axis, a: Byte): (r: Gamepad)
    ensures AxisValue(r.report, axis) == a
    ensures OnlyAxisChanged(r.report, g.report, axis)
    ensures r.startMillis == g.startMillis && r.sent == g.sent
  {
    g.(report := WithAxis(g.report, axis, a))
  }

  function LeftXAxis(g: Gamepad, a: Byte): Gamepad { AxisSetter(g, LeftX, a) }

  function LeftYAxis(g: Gamepad, a: Byte): Gamepad { AxisSetter(g, LeftY, a) }

  function RightXAxis(g: Gamepad, a: Byte): Gamepad { AxisSetter(g, RightX, a) }

  function RightYAxis(g: Gamepad, a: Byte): Gamepad { AxisSetter(g, RightY, a) }

  /** The deprecated axis setters write exactly what `setAxis` writes for the axis ids. */
  lemma AxisSettersAgreeWithSetAxis(g: Gamepad, a: Byte)
    ensures LeftXAxis(g, a) == SetAxis(g, AxisLeftX, a)
    ensures LeftYAxis(g, a) == SetAxis(g, AxisLeftY, a)
    ensures RightXAxis(g, a) == SetAxis(g, AxisRightX, a)
    ensures RightYAxis(g, a) == SetAxis(g, AxisRightY, a)
  {
  }

  /** `dPad(int8_t d)`: the signed value is stored in the unsigned byte, that
      is `d` modulo 256; no cleaning or range check is applied. */
  function DPad(g: Gamepad, d: int): (r: Gamepad)
    requires -128 <= d < 128
    ensures r.report.dPad as int == d % 256
    ensures r.report == g.report.(dPad := r.report.dPad)
    ensures r.startMillis == g.startMillis && r.sent == g.sent
  {
    g.(report := g.report.(dPad := ByteOf(d % 256)))
  }
}

=== FILE: teensy4.dfy ===
/** The Teensy 4 variant of the NSGamepad driver (`teensy4/usb_nsgamepad.cpp`).

    Its state is the report plus a buffer of four raw D-pad flags. Inputs are
    addressed through one id space (`set`/`get`/`press`/`release`). The
    D-pad flags are cleaned with a neutral rule for both opposite pairs and
    turned into a code by `encodeDpad`: `send()` (and `loop` through it)
    refreshes the stored code from the flags; `get` of the whole pad encodes
    without storing; `write()`, `begin()` and `end()` transmit the stored
    code as it stands. The USB transport is a log of transmitted reports;
    the clock is the `now` parameter.
 */
module Teensy4 {
  import opened Bits
  import opened Protocol
  import opened PollTimer

  /** An input id: a number of the NSInputs enum, or NSDPad, the id of the
      whole pad. The value of NSDPad is defined outside the header this model
      follows; it is kept distinct from every numbered id. */
  datatype Input = Numbered(id: Byte) | WholePad

  /** The ids the model accepts: the whole pad and every id below 32. Ids
      24..31 fall into the button branch of `set` and `get` with a shift that
      leaves the 16-bit field, so they change nothing and read 0; from 32 on
      the shift exceeds the width of `int`, which C++ leaves undefined. */
  predicate ValidInput(i: Input)
  {
    i.WholePad? || i.id < 32
  }

  /** The driver object: the report (aliased onto the USB buffer in the
      firmware), the raw D-pad flags, the time of the last periodic
      transmission, and every report handed to the transport so far. */
  datatype Gamepad = Gamepad(report: Report, dpadBuffer: DPadButtons, startMillis: Word, sent: seq<Report>)

  /** `usb_nsgamepad_send()`: the transport receives the report as it stands. */
  function Transmit(g: Gamepad): (r: Gamepad)
  {
    g.(sent := g.sent + [g.report])
  }

  /** The constructor fills report and buffer with idle data. It never writes
      `startMillis`, whose value until `begin` is the parameter `garbage`. */
  function Construct(garbage: Word): (g: Gamepad)
    ensures g.report == IdleReport() && g.dpadBuffer == Released
    ensures g.startMillis == garbage && g.sent == []
  {
    ReleaseAll(Gamepad(IdleReport(), Released, garbage, []))
  }

  // ---------------------------------------------------------------------
  // The D-pad encoder and decoder
  // ---------------------------------------------------------------------

  /** `encodeDpad`: up with down cancels to neither, left with right cancels
      to neither, and what is left is mapped to one of the nine codes. The
      code points in a direction exactly when that flag is set and its
      opposite is not. */
  function EncodeDpad(dpad: DPadButtons): (c: Byte)
    ensures IsDpadCode(c)
    ensures PointsUp(c) == (dpad.up && !dpad.down)
    ensures PointsDown(c) == (dpad.down && !dpad.up)
    ensures PointsLeft(c) == (dpad.left && !dpad.right)
    ensures PointsRight(c) == (dpad.right && !dpad.left)
  {
    var vertical := if dpad.up && dpad.down then dpad.(up := false, down := false) else dpad;
    var cleaned := if vertical.left && vertical.right then vertical.(left := false, right := false) else vertical;
    CompassCodeInverse(cleaned);
    CompassCode(cleaned)
  }

  /** The branch of `set` for NSDPad: a code is decoded into the flags it
      points towards, so that encoding them gives the code back; any byte
      that is not one of the nine codes decodes to no flag at all. */
  function DecodeDpad(value: Byte): (f: DPadButtons)
    ensures Clean(f)
    ensures f == PointsOf(value)
    ensures IsDpadCode(value) ==> EncodeDpad(f) == value
    ensures !IsDpadCode(value) ==> f == Released && EncodeDpad(f) == DpadCentered
  {
    var f := DPadButtons(
      up := value == DpadUpLeft || value <= DpadUpRight,
      down := DpadDownRight <= value <= DpadDownLeft,
      left := DpadDownLeft <= value <= DpadUpLeft,
      right := DpadUpRight <= value <= DpadDownRight);
    if IsDpadCode(value) then
      CodeDeterminedByPoints(EncodeDpad(f), value);
      f
    else
      f
  }

  /** Encoding and then decoding yields the cleaned flags: every flag whose
      opposite is not also set. */
  lemma DecodeEncode(dpad: DPadButtons)
    ensures DecodeDpad(EncodeDpad(dpad))
         == DPadButtons(dpad.up && !dpad.down, dpad.down && !dpad.up, dpad.left && !dpad.right, dpad.right && !dpad.left)
  {
  }

  // ---------------------------------------------------------------------
  // set / get / press / release
  // ---------------------------------------------------------------------

  /** `isAxis`: whether an id names one of the four analog axes. */
  function IsAxis(input: Input): (b: bool)
    ensures b <==> input.Numbered? && 16 <= input.id <= 19
  {
    match input
    case WholePad => false
    case Numbered(id) => KindOf(id).AxisInput?
  }

  /** `set`: one write, chosen by the id. */
  function Set(g: Gamepad, input: Input, value: Byte): (r: Gamepad)
    requires ValidInput(input)
    ensures r.startMillis == g.startMillis && r.sent == g.sent
    ensures input.WholePad? ==>
      && r.report == g.report
      && Clean(r.dpadBuffer)
      && EncodeDpad(r.dpadBuffer) == (if IsDpadCode(value) then value else DpadCentered)
    ensures input.Numbered? && KindOf(input.id).ButtonInput? ==>
      && r.dpadBuffer == g.dpadBuffer
      && Bit(r.report.buttons, KindOf(input.id).bit) == (value != 0)
      && OnlyButtonChanged(r.report, g.report, KindOf(input.id).bit)
    ensures input.Numbered? && KindOf(input.id).AxisInput? ==>
      && r.dpadBuffer == g.dpadBuffer
      && AxisValue(r.report, KindOf(input.id).axis) == value
      && OnlyAxisChanged(r.report, g.report, KindOf(input.id).axis)
    ensures input.Numbered? && KindOf(input.id).FlagInput? ==>
      && r.report == g.report
      && FlagValue(r.dpadBuffer, KindOf(input.id).flag) == (value != 0)
      && forall f: Flag :: f != KindOf(input.id).flag ==> FlagValue(r.dpadBuffer, f) == FlagValue(g.dpadBuffer, f)
    ensures input.Numbered? && 24 <= input.id ==> r == g
  {
    match input
    case WholePad => g.(dpadBuffer := DecodeDpad(value))
    case Numbered(id) =>
      match KindOf(id)
      case AxisInput(a) => g.(report := WithAxis(g.report, a, value))
      case FlagInput(f) => g.(dpadBuffer := WithFlag(g.dpadBuffer, f, value != 0))
      case ButtonInput(b) =>
        var buttons := if value != 0 then SetBit(g.report.buttons, b) else ClearBit(g.report.buttons, b);
        g.(report := g.report.(buttons := buttons))
      case Unassigned => g
  }

  /** `get`: one read, chosen by the id. The result is a `uint8_t`, so for a
      button the value `buttons & (1 << b)` keeps only its low byte: a pressed
      button 0..7 reads as its mask, and buttons 8..15 always read 0. */
  function Get(g: Gamepad, input: Input): (v: Byte)
    requires ValidInput(input)
    ensures input.WholePad? ==> v == EncodeDpad(g.dpadBuffer)
    ensures input.Numbered? && KindOf(input.id).ButtonInput? ==>
      var b := KindOf(input.id).bit;
      && (v != 0 <==> b < 8 && Bit(g.report.buttons, b))
      && (v != 0 ==> v as bv16 == Mask(b))
    ensures input.Numbered? && KindOf(input.id).AxisInput? ==> v == AxisValue(g.report, KindOf(input.id).axis)
    ensures input.Numbered? && KindOf(input.id).FlagInput? ==>
      v == if FlagValue(g.dpadBuffer, KindOf(input.id).flag) then 1 else 0
    ensures input.Numbered? && 24 <= input.id ==> v == 0
  {
    match input
    case WholePad => EncodeDpad(g.dpadBuffer)
    case Numbered(id) =>
      match KindOf(id)
      case AxisInput(a) => AxisValue(g.report, a)
      case FlagInput(f) => if FlagValue(g.dpadBuffer, f) then 1 else 0
      case ButtonInput(b) =>
        MaskedValue(g.report.buttons, b);
        TruncatedMask(b);
        LowByte(g.report.buttons & Mask(b))
      case Unassigned => 0
  }

  /** What the `uint8_t` store in the button branch of `get` keeps of a
      16-bit mask: the mask itself for positions 0..7, and 0 for 8..15. It
      restates `MaskedValue`'s low-byte facts through `LowByte`, the
      truncation `get` applies. */
  lemma TruncatedMask(b: bv4)
    ensures b < 8 ==> LowByte(Mask(b)) != 0 && LowByte(Mask(b)) as bv16 == Mask(b)
    ensures 8 <= b ==> LowByte(Mask(b)) == 0
  {
  }

  /** What `get` reads back right after `set` wrote `value` to the same id. */
  lemma GetAfterSet(g: Gamepad, input: Input, value: Byte)
    requires ValidInput(input)
    ensures input.WholePad? ==> Get(Set(g, input, value), input) == (if IsDpadCode(value) then value else DpadCentered)
    ensures input.Numbered? && KindOf(input.id).AxisInput? ==> Get(Set(g, input, value), input) == value
    ensures input.Numbered? && KindOf(input.id).FlagInput? ==> Get(Set(g, input, value), input) == (if value != 0 then 1 else 0)
    ensures input.Numbered? && input.id < 8 ==> (Get(Set(g, input, value), input) != 0 <==> value != 0)
    ensures input.Numbered? && 8 <= input.id < 16 ==> Get(Set(g, input, value), input) == 0
  {
  }

  /** A `set` of one numbered id leaves what `get` reads at every other numbered id unchanged. */
  lemma SetLeavesOtherIds(g: Gamepad, i: Byte, j: Byte, value: Byte)
    requires i < 32 && j < 32 && i != j
    ensures Get(Set(g, Numbered(i), value), Numbered(j)) == Get(g, Numbered(j))
  {
    if i < 24 {
      KindOfInjective(i, j);
    }
    var r := Set(g, Numbered(i), value);
    match KindOf(j)
    case ButtonInput(b) =>
      assert Bit(r.report.buttons, b) == Bit(g.report.buttons, b);
      MaskedValue(r.report.buttons, b);
      MaskedValue(g.report.buttons, b);
    case _ =>
  }

  /** `press`: an axis cannot be pressed; pressing the whole pad centres it;
      any other id is set to true. */
  function Press(g: Gamepad, input: Input): (r: Gamepad)
    requires ValidInput(input)
    ensures r.startMillis == g.startMillis && r.sent == g.sent
    ensures IsAxis(input) ==> r == g
    ensures input.WholePad? ==> r.report == g.report && r.dpadBuffer == Released
    ensures input.Numbered? && KindOf(input.id).ButtonInput? ==>
      && r.dpadBuffer == g.dpadBuffer
      && Bit(r.report.buttons, KindOf(input.id).bit)
      && OnlyButtonChanged(r.report, g.report, KindOf(input.id).bit)
    ensures input.Numbered? && KindOf(input.id).FlagInput? ==>
      r == g.(dpadBuffer := WithFlag(g.dpadBuffer, KindOf(input.id).flag, true))
    ensures input.Numbered? && 24 <= input.id ==> r == g
  {
    if IsAxis(input) then g
    else if input == WholePad then Set(g, input, DpadCentered)
    else Set(g, input, 1)
  }

  /** `release`. For an axis the firmware first writes the centre 0x80 but,
      with no `return` after it, falls through to `set(input, false)`, so the
      axis ends at 0. The whole pad is centred; any other id is set to false. */
  function Release(g: Gamepad, input: Input): (r: Gamepad)
    requires ValidInput(input)
    ensures r.startMillis == g.startMillis && r.sent == g.sent
    ensures IsAxis(input) ==>
      && r.dpadBuffer == g.dpadBuffer
      && AxisValue(r.report, KindOf(input.id).axis) == 0
      && OnlyAxisChanged(r.report, g.report, KindOf(input.id).axis)
    ensures input.WholePad? ==> r.report == g.report && r.dpadBuffer == Released
    ensures input.Numbered? && KindOf(input.id).ButtonInput? ==>
      && r.dpadBuffer == g.dpadBuffer
      && !Bit(r.report.buttons, KindOf(input.id).bit)
      && OnlyButtonChanged(r.report, g.report, KindOf(input.id).bit)
    ensures input.Numbered? && KindOf(input.id).FlagInput? ==>
      r == g.(dpadBuffer := WithFlag(g.dpadBuffer, KindOf(input.id).flag, false))
    ensures input.Numbered? && 24 <= input.id ==> r == g
  {
    var centred := if IsAxis(input) then Set(g, input, 0x80) else g;
    if input == WholePad then Set(centred, input, DpadCentered)
    else Set(centred, input, 0)
  }

  /** Pressing a button that is up and releasing it again restores the whole state. */
  lemma PressReleaseRestores(g: Gamepad, b: Byte)
    requires b < 16
    requires !Bit(g.report.buttons, b as bv4)
    ensures Release(Press(g, Numbered(b)), Numbered(b)) == g
  {
    var w := g.report.buttons;
    ClearAfterSet(w, b as bv4);
    assert Release(Press(g, Numbered(b)), Numbered(b)).report.buttons == ClearBit(SetBit(w, b as bv4), b as bv4);
  }

  /** Corrected `release`: an axis is left at its centre 0x80, as the
      comment on the axis branch says; every other id behaves as in `Release`. */
  function ReleaseCentred(g: Gamepad, input: Input): (r: Gamepad)
    requires ValidInput(input)
    ensures IsAxis(input) ==>
      && r.dpadBuffer == g.dpadBuffer && r.startMillis == g.startMillis && r.sent == g.sent
      && AxisValue(r.report, KindOf(input.id).axis) == 0x80
      && OnlyAxisChanged(r.report, g.report, KindOf(input.id).axis)
    ensures !IsAxis(input) ==> r == Release(g, input)
  {
    if IsAxis(input) then Set(g, input, 0x80)
    else if input == WholePad then Set(g, input, DpadCentered)
    else Set(g, input, 0)
  }

  /** The release of an axis as written leaves 0 where the centre was meant. */
  lemma ReleaseAxisEndsAtZero(g: Gamepad)
    ensures Get(Release(g, Numbered(AxisLeftX)), Numbered(AxisLeftX)) == 0
    ensures Get(ReleaseCentred(g, Numbered(AxisLeftX)), Numbered(AxisLeftX)) == 0x80
  {
  }

  /** Corrected `get`: a button reads 1 when pressed and 0 otherwise, for all
      16 buttons; every other id reads as in `Get`. */
  function GetCorrected(g: Gamepad, input: Input): (v: Byte)
    requires ValidInput(input)
    ensures input.Numbered? && KindOf(input.id).ButtonInput? ==>
      v == if Bit(g.report.buttons, KindOf(input.id).bit) then 1 else 0
    ensures !(input.Numbered? && KindOf(input.id).ButtonInput?) ==> v == Get(g, input)
  {
    if input.Numbered? && input.id < 16 then
      (if Bit(g.report.buttons, input.id as bv4) then 1 else 0)
    else
      Get(g, input)
  }

  /** With the corrected read, every button reads back as it was set. */
  lemma GetCorrectedAfterSet(g: Gamepad, b: Byte, value: Byte)
    requires b < 16
    ensures GetCorrected(Set(g, Numbered(b), value), Numbered(b)) == if value != 0 then 1 else 0
  {
  }

  /** As written, a pressed button 8..15 (Minus, Plus, the stick clicks, Home,
      Capture, the reserved two) reads as 0, the same as a released one. */
  lemma GetLosesHighButtons(g: Gamepad, b: Byte)
    requires 8 <= b < 16
    ensures Get(Press(g, Numbered(b)), Numbered(b)) == Get(Release(g, Numbered(b)), Numbered(b)) == 0
    ensures GetCorrected(Press(g, Numbered(b)), Numbered(b)) == 1
  {
  }

  // ---------------------------------------------------------------------
  // releaseAll, send, begin, loop
  // ---------------------------------------------------------------------

  /** `releaseAll`: the idle report (no button, axes at 0x80, pad centred,
      filler 0) and a buffer whose raw byte is 0. */
  function ReleaseAll(g: Gamepad): (r: Gamepad)
    ensures Serialize(r.report) == [0, 0, DpadCentered, 0x80, 0x80, 0x80, 0x80, 0]
    ensures forall f: Flag :: !FlagValue(r.dpadBuffer, f)
    ensures EncodeDpad(r.dpadBuffer) == r.report.dPad
    ensures r.startMillis == g.startMillis && r.sent == g.sent
  {
    ZeroRawReleases();
    g.(report := IdleReport(), dpadBuffer := FromRaw(0))
  }

  /** Releasing everything twice is releasing it once. */
  lemma ReleaseAllIdempotent(g: Gamepad)
    ensures ReleaseAll(ReleaseAll(g)) == ReleaseAll(g)
  {
  }

  /** `send()`: the report's `dPad` is refreshed from the buffer, then the
      report is transmitted. Nothing else changes. */
  function Send(g: Gamepad): (r: Gamepad)
    ensures r.report.dPad == EncodeDpad(g.dpadBuffer)
    ensures r.report == g.report.(dPad := r.report.dPad)
    ensures r.sent == g.sent + [r.report]
    ensures r.dpadBuffer == g.dpadBuffer && r.startMillis == g.startMillis
  {
    Transmit(g.(report := g.report.(dPad := EncodeDpad(g.dpadBuffer))))
  }

  /** `send(r)`: the whole report is replaced by `rep` and transmitted; the
      D-pad buffer is not touched. */
  function SendReport(g: Gamepad, rep: Report): (r: Gamepad)
    ensures r.report == rep && r.sent == g.sent + [rep]
    ensures r.dpadBuffer == g.dpadBuffer && r.startMillis == g.startMillis
  {
    Transmit(g.(report := rep))
  }

  /** The pad of a report injected with `send(r)` survives only until the next
      `send()`, which writes the code of the untouched buffer over it. */
  lemma InjectedPadOverwritten(g: Gamepad, rep: Report)
    ensures Send(SendReport(g, rep)).report.dPad == EncodeDpad(g.dpadBuffer)
    ensures Send(SendReport(g, rep)).report == rep.(dPad := EncodeDpad(g.dpadBuffer))
  {
  }

  /** `begin`: release everything, transmit the idle report, and start the
      transmit timer at `now`. */
  function Begin(g: Gamepad, now: Word): (r: Gamepad)
    ensures r.report == IdleReport() && r.dpadBuffer == Released
    ensures r.sent == g.sent + [IdleReport()]
    ensures r.startMillis == now
  {
    Transmit(ReleaseAll(g)).(startMillis := now)
  }

  /** `loop`: when at least 6 ms (modulo 2^32) have passed since the last
      periodic transmission, `send()` and restart the timer at `now`;
      otherwise nothing happens. */
  function Loop(g: Gamepad, now: Word): (r: Gamepad)
    ensures Due(now, g.startMillis) ==>
      && r.sent == g.sent + [r.report]
      && r.report == g.report.(dPad := EncodeDpad(g.dpadBuffer))
      && r.dpadBuffer == g.dpadBuffer
      && r.startMillis == now
    ensures !Due(now, g.startMillis) ==> r == g
  {
    if Due(now, g.startMillis) then Send(g).(startMillis := now) else g
  }

  /** Two calls of `loop` less than 6 ms apart transmit at most once; if the
      first one transmits, the second transmits again exactly when 6 ms or
      more separate them, across a wrap-around of the clock as well. */
  lemma LoopSpacing(g: Gamepad, t1: Word, t2: Word)
    requires Due(t1, g.startMillis)
    ensures |Loop(Loop(g, t1), t2).sent| == |g.sent| + (if Due(t2, t1) then 2 else 1)
  {
  }

  /** After `begin(now)`, `loop` stays silent for the next five milliseconds. */
  lemma BeginThenQuiet(g: Gamepad, now: Word, later: Word)
    requires Elapsed(later, now) < PollInterval
    ensures Loop(Begin(g, now), later) == Begin(g, now)
  {
  }

  // ---------------------------------------------------------------------
  // Deprecated API
  // ---------------------------------------------------------------------

  /** `end`: release everything and transmit. */
  function End(g: Gamepad): (r: Gamepad)
    ensures r.report == IdleReport() && r.dpadBuffer == Released
    ensures r.sent == g.sent + [IdleReport()] && r.startMillis == g.startMillis
  {
    Transmit(ReleaseAll(g))
  }

  /** `write()`: transmit the report as it stands, without refreshing its pad. */
  function Write(g: Gamepad): (r: Gamepad)
    ensures r.sent == g.sent + [g.report]
    ensures r.report == g.report && r.dpadBuffer == g.dpadBuffer && r.startMillis == g.startMillis
  {
    Transmit(g)
  }

  /** `write()` does not refresh the pad as `send()` does: after a flag is
      set, it transmits the pad code that was stored before. */
  lemma WriteSendsStoredPad(g: Gamepad)
    requires g.report.dPad == DpadCentered && g.dpadBuffer == Released
    ensures Write(Set(g, Numbered(DpadInputUp), 1)).sent[|g.sent|].dPad == DpadCentered
    ensures Send(Set(g, Numbered(DpadInputUp), 1)).sent[|g.sent|].dPad == DpadUp
  {
  }

  /** `write(r)`: the report is overwritten with `ReportSize` raw bytes and transmitted. */
  function WriteRaw(g: Gamepad, bytes: seq<Byte>): (r: Gamepad)
    requires |bytes| == ReportSize
    ensures Serialize(r.report) == bytes
    ensures r.sent == g.sent + [r.report]
    ensures r.dpadBuffer == g.dpadBuffer && r.startMillis == g.startMillis
  {
    SerializeDeserialize(bytes);
    Transmit(g.(report := Deserialize(bytes)))
  }

  /** `buttons(b)`: the whole button field is overwritten. */
  function Buttons(g: Gamepad, b: bv16): (r: Gamepad)
    ensures r.report.buttons == b
    ensures r.report == g.report.(buttons := b)
    ensures r.dpadBuffer == g.dpadBuffer && r.startMillis == g.startMillis && r.sent == g.sent
  {
    g.(report := g.report.(buttons := b))
  }

  /** `leftXAxis(a)`, `leftYAxis(a)`, `rightXAxis(a)`, `rightYAxis(a)`: one axis byte is overwritten. */
  function AxisSetter(g: Gamepad, axis: Axis, a: Byte): (r: Gamepad)
    ensures AxisValue(r.report, axis) == a
    ensures OnlyAxisChanged(r.report, g.report, axis)
    ensures r.dpadBuffer == g.dpadBuffer && r.startMillis == g.startMillis && r.sent == g.sent
  {
    g.(report := WithAxis(g.report, axis, a))
  }

  function LeftXAxis(g: Gamepad, a: Byte): Gamepad { AxisSetter(g, LeftX, a) }

  function LeftYAxis(g: Gamepad, a: Byte): Gamepad { AxisSetter(g, LeftY, a) }

  function RightXAxis(g: Gamepad, a: Byte): Gamepad { AxisSetter(g, RightX, a) }

  function RightYAxis(g: Gamepad, a: Byte): Gamepad { AxisSetter(g, RightY, a) }

  /** The deprecated axis setters write exactly what `set` writes for the axis ids. */
  lemma AxisSettersAgreeWithSet(g: Gamepad, a: Byte)
    ensures LeftXAxis(g, a) == Set(g, Numbered(AxisLeftX), a)
    ensures LeftYAxis(g, a) == Set(g, Numbered(AxisLeftY), a)
    ensures RightXAxis(g, a) == Set(g, Numbered(AxisRightX), a)
    ensures RightYAxis(g, a) == Set(g, Numbered(AxisRightY), a)
  {
  }

  /** `dPad(int8_t d)`: the signed value is stored in the unsigned byte,
      that is `d` modulo 256. The buffer is not touched, so the next `send()`
      replaces it. */
  function DPad(g: Gamepad, d: int): (r: Gamepad)
    requires -128 <= d < 128
    ensures r.report.dPad as int == d % 256
    ensures r.report == g.report.(dPad := r.report.dPad)
    ensures r.dpadBuffer == g.dpadBuffer && r.startMillis == g.startMillis && r.sent == g.sent
    ensures Send(r).report.dPad == EncodeDpad(g.dpadBuffer)
  {
    g.(report := g.report.(dPad := ByteOf(d % 256)))
  }
}

=== FILE: variants.dfy ===
/** How the two firmware variants relate: they share the direction mapping
    and the code layout, and differ in what an SOCD cleaner does with up and
    down held together (Teensy 4 cancels both, Teensy 3 keeps up).
 */
module Variants {
  import opened Protocol
  import Teensy4
  import Teensy3

  /** The two cleaners store the same code exactly when up and down are not
      both held; when they are, the codes differ in their vertical part. */
  lemma CleanersDifferOnlyOnUpDown(g: Teensy3.Gamepad, up: bool, down: bool, left: bool, right: bool)
    ensures Teensy3.SetDpad(g, up, down, left, right).report.dPad == Teensy4.EncodeDpad(DPadButtons(up, down, left, right))
            <==> !(up && down)
    ensures up && down ==>
      && PointsUp(Teensy3.SetDpad(g, up, down, left, right).report.dPad)
      && !PointsUp(Teensy4.EncodeDpad(DPadButtons(up, down, left, right)))
      && !PointsDown(Teensy4.EncodeDpad(DPadButtons(up, down, left, right)))
  {
    var c3 := Teensy3.SetDpad(g, up, down, left, right).report.dPad;
    var c4 := Teensy4.EncodeDpad(DPadButtons(up, down, left, right));
    if !(up && down) {
      CodeDeterminedByPoints(c3, c4);
    }
  }

  /** Up+down, left+right and up+right: with up and down Teensy 3 reports up
      and Teensy 4 the centre; left with right is the centre in both, and up
      with right is up-right in both. */
  lemma UpDownExample(g: Teensy3.Gamepad)
    ensures Teensy3.SetDpad(g, true, true, false, false).report.dPad == DpadUp
    ensures Teensy4.EncodeDpad(DPadButtons(true, true, false, false)) == DpadCentered
    ensures Teensy3.SetDpad(g, false, false, true, true).report.dPad == DpadCentered
    ensures Teensy4.EncodeDpad(DPadButtons(false, false, true, true)) == DpadCentered
    ensures Teensy3.SetDpad(g, true, false, false, true).report.dPad == DpadUpRight
    ensures Teensy4.EncodeDpad(DPadButtons(true, false, false, true)) == DpadUpRight
  {
    CleanersDifferOnlyOnUpDown(g, true, true, false, false);
    CodeDeterminedByPoints(Teensy3.SetDpad(g, true, true, false, false).report.dPad, DpadUp);
    CodeDeterminedByPoints(Teensy4.EncodeDpad(DPadButtons(true, true, false, false)), DpadCentered);
    CodeDeterminedByPoints(Teensy3.SetDpad(g, false, false, true, true).report.dPad, DpadCentered);
    CodeDeterminedByPoints(Teensy4.EncodeDpad(DPadButtons(false, false, true, true)), DpadCentered);
    CodeDeterminedByPoints(Teensy3.SetDpad(g, true, false, false, true).report.dPad, DpadUpRight);
    CodeDeterminedByPoints(Teensy4.EncodeDpad(DPadButtons(true, false, false, true)), DpadUpRight);
  }

  /** Teensy 4 decodes a stored code by comparing it against ranges, Teensy 3
      by membership in three-code lists; both read every byte the same way. */
  lemma DecodersAgree(g: Teensy3.Gamepad)
    ensures Teensy4.DecodeDpad(g.report.dPad)
         == DPadButtons(
              Teensy3.GetDpad(g, DpadUp), Teensy3.GetDpad(g, DpadDown),
              Teensy3.GetDpad(g, DpadLeft), Teensy3.GetDpad(g, DpadRight))
  {
  }
}
